=== FILE: README.md ===
# Hot/cold finder: proximity-to-sound pipeline in Dafny

This project models the core of a browser "hot/cold" seek-and-find game. A
hidden target point sits somewhere on the screen. The game plays one of six
pre-rendered sound loops, louder and richer as the pointer gets closer, and
reveals the target once the pointer comes within a reveal radius.

Five modules, following the structure of `script.js`:

- `Maybe` (`maybe.dfy`): the option type shared by the other modules.
- `RealMath` (`realmath.dfy`): `Min`, `Max` and `Abs` on reals, shared by the
  geometry and the audio engine.
- `Geometry` (`geometry.dfy`): `clamp`, the playable rectangle
  (`getPlayableArea`), re-clamping the target on resize, arrow-key nudging of
  the pointer, and the fallback from the off-screen pointer sentinel to the
  viewport centre (`Math.round` included, as round-half-up).
- `Proximity` (`proximity.dfy`): the classifier `levelFromDistance`. A distance
  is normalised against `maxDist` (the viewport diagonal times
  `maxDistanceFactor`) into a closeness in [0, 1]. Five breakpoints are then
  scanned, and a missing breakpoint falls back to `(i+1)/6`. The module also
  holds the reveal test `dist <= revealRadius` and `computeDesiredLevel`.
- `AudioEngine` (`audio.dfy`): the continuous engine. There are six looping
  sources, each feeding its own gain channel, plus a `currentLevel` marker.
  Each gain parameter is abstracted as one linear ramp (start time, start
  value, target value, end time). The operations are `setActiveLevel`,
  `stopSound`, `startAllLoops`, the restart reset, and a trace of game events
  with an invariant that every event keeps.

`Maybe.Option` models values that can be absent: a null or missing
breakpoint, a missing HUD element, an unset margin, a failed buffer load.
Distances, the viewport size, the audio clock's `currentTime` and
`Math.hypot` are inputs. `Math.hypot` is a function parameter that is assumed
to return non-negative values.

Behaviour of the code worth knowing, each case modelled as written:

- Half-way closeness. With the shipped breakpoints
  `[1/6, 3.4/6, 4.5/6, 5.2/6, 5.7/6]`, a closeness of 0.5 gives level 1,
  because `0.5 < 3.4/6` (`Proximity.HalfwayIsLevelOne`).
- Breakpoint order. The code never checks that the breakpoints ascend. The
  level is still non-increasing in distance for every breakpoint list
  (`Proximity.LevelAntitoneInDistance`). Ascending order is only needed to
  read level k as the band between breakpoints k-1 and k
  (`Proximity.LevelIsBand`).
- Zero-size viewport. When `maxDist` is 0, the code's `0/0` closeness is NaN.
  No `<` comparison holds on NaN, so the result is level 5. A positive
  distance over a zero `maxDist` gives closeness 0. Both cases are modelled
  explicitly. So "distance ≥ maxDist gives level 0" needs a positive
  `maxDist`.
- A configured `margin` or `hudPadding` of exactly 0 is replaced by the
  default. The code uses `||`, which treats 0 as missing
  (`Geometry.ZeroMarginFallsBack`).

## Model

| member | source | states |
|---|---|---|
| Geometry.Clamp | script.js:56 | the result lies in [lo, hi] when that interval is non-empty; a value already inside is returned unchanged; when lo > hi the lower bound wins |
| Geometry.ClampIsNearest | script.js:56 | clamping yields the point of the interval nearest to the input |
| Geometry.OrDefault | script.js:593-594 | a present, non-zero setting is used as given; a missing setting or one equal to 0 gives the default |
| Geometry.ZeroMarginFallsBack | script.js:593 | a margin configured as 0 becomes the 24 px default |
| Geometry.PlayableArea | script.js:592-608 | width and height are never negative; the left edge is inset by margin plus target pad; the top edge is the lower of that inset and, with a HUD, the HUD's bottom plus its padding plus the pad; a non-empty area ends exactly margin plus pad before the right and bottom viewport edges; a side is empty only when there is no room between those edges |
| Geometry.PlayableAreaKeepsClear | script.js:592-608 | every point of a non-degenerate area keeps margin plus pad from all four viewport edges and stays clear of the HUD |
| Geometry.ClampTarget | script.js:282-283 | the re-clamped target lies in [x, x+max(0,w)] × [y, y+max(0,h)]; each axis is clamped on its own, so a coordinate already inside its range does not move |
| Geometry.ClampTargetIsNearest | script.js:282-283 | along each axis, the re-clamped target is the point of the area nearest to where the target was |
| Geometry.ResizeKeepsTargetInArea | script.js:279-284 | after a resize the target lies inside the new playable area, and a second resize to the same viewport leaves it where it is |
| Geometry.Nudge | script.js:408-421 | a non-arrow key is not used; after an arrow key the pointer is the one-step move (12 px with Shift, else 6 px) with each coordinate clamped into [0, innerWidth] and [0, innerHeight]; it lies in the viewport, and a move that stays inside is taken exactly |
| Geometry.NudgeLandsNearest | script.js:413-421 | along each axis, the nudged pointer is the viewport point nearest to where the step would have taken it |
| Geometry.NudgeLeftRightRoundTrip | script.js:413-421 | a left nudge followed by a right nudge returns the pointer to where it started, while the left step stays inside the viewport |
| Geometry.RoundHalfUp | script.js:155 | `Math.round` gives an integer within half a unit of its input, with ties rounded up |
| Geometry.EffectivePointer | script.js:153-159 | a pointer with non-negative coordinates is used as is; a pointer with a negative coordinate (the sentinel) is replaced by the viewport centre with each coordinate rounded by `Math.round`, which lies within half a pixel of the true centre and is never negative |
| Geometry.SentinelUsesCentre | script.js:19 | the initial off-screen pointer measures from a point inside the viewport, within half a pixel of its centre |
| Proximity.EffectiveBreakpoint | script.js:143 | a present breakpoint i is used as configured; a missing one (beyond the list, or null) is (i+1)/6 |
| Proximity.TrailingEntriesIgnored | script.js:142-143 | breakpoints after the fifth never change a level |
| Proximity.ShortListUsesSixths | script.js:141-143 | a list shorter than five classifies like the same list completed with (i+1)/6 |
| Proximity.ScanFrom | script.js:142-145 | the scan from index i returns the index of the first effective breakpoint exceeding the closeness, or 5 if none does; every earlier breakpoint is at most the closeness |
| Proximity.LevelOfCloseness | script.js:141-145 | for any breakpoint list, including a short or empty one, the level is in 0..5 and meets the first-exceeding-breakpoint characterisation |
| Proximity.LevelIsUnique | script.js:142-145 | exactly one level satisfies that characterisation |
| Proximity.LevelMonotoneInCloseness | script.js:142-145 | greater closeness never gives a lower level, whatever the breakpoints |
| Proximity.LevelIsBand | script.js:25-26 | with ascending effective breakpoints, the level is k exactly when the closeness lies in [breakpoint k-1, breakpoint k), with open ends at levels 0 and 5 |
| Proximity.Closeness | script.js:140 | closeness lies in [0, 1]; within a positive maxDist it is exactly 1 - dist/maxDist, at or beyond it 0; it is 1 at distance 0 and for a negative maxDist, and 0 for a positive distance over a zero maxDist |
| Proximity.LevelFromDistance | script.js:137-146 | the level is in 0..5 and is the level of the distance's closeness; when distance and maxDist are both 0 the level is 5 |
| Proximity.MaxLevelDistance | script.js:148-150 | maxDist is the viewport diagonal scaled by the factor (maxDist / diagonal == factor for a positive diagonal, 0 for a zero diagonal); it is non-negative for a non-negative factor, and positive for a positive diagonal and factor |
| Proximity.LevelIsScaleFree | script.js:23 | scaling the viewport diagonal and the distance by the same positive factor leaves the level unchanged: distance counts only relative to the diagonal |
| Proximity.ZeroDistanceIsLoudest | script.js:140-145 | distance 0 gives level 5 whenever no effective breakpoint exceeds 1 |
| Proximity.FarIsLevelZero | script.js:139-143 | a distance at or beyond a positive maxDist gives level 0 when the first effective breakpoint is positive |
| Proximity.ClosenessAntitone | script.js:140 | for a fixed positive maxDist, closeness does not increase with distance |
| Proximity.LevelAntitoneInDistance | script.js:137-146 | if d1 ≤ d2 then level(d1) ≥ level(d2), for any breakpoints and any maxDist |
| Proximity.ShippedBreakpointsWellFormed | script.js:24-26 | the shipped breakpoints and the empty-list fallback both ascend; the shipped ones lie strictly inside (0, 1) |
| Proximity.HalfwayIsLevelOne | script.js:26 | under the shipped breakpoints, a distance of maxDist/2 gives level 1 |
| Proximity.IsNear | script.js:166 | the pointer is near exactly when its distance is at most the reveal radius |
| Proximity.NearImpliesLoudest | script.js:163-166 | when the reveal radius fits inside the last band and the breakpoints ascend, a pointer near enough to reveal the target hears level 5 |
| Proximity.ComputeDesiredLevel | script.js:152-170 | the level is the classifier applied to the hypot distance from the effective pointer to the target, against maxDist = hypot(viewport) × factor; near holds exactly when that distance is at most the reveal radius; at distance 0 with breakpoints at most 1 the level is 5 |
| AudioEngine.Steady | script.js:117 | a gain set directly to v has value v at every time |
| AudioEngine.ValueBetween | script.js:207-208 | a linear ramp never overshoots: its value always lies between its start value and its target |
| AudioEngine.ShippedIsValid | script.js:28-49 | the shipped volumes, crossfade and floor gain form a valid configuration: six positive volumes, a positive crossfade, a non-zero floor |
| AudioEngine.MinOf | script.js:182 | the loop duration is one of the buffer durations and none is shorter |
| AudioEngine.SetupAudio | script.js:106-121 | creating the context gives six channels held at the floor gain and changes nothing else; once a context exists nothing changes |
| AudioEngine.LoadBuffers | script.js:123-135 | buffers are replaced only when fewer than six are loaded, a context exists and every file decodes; otherwise the state is unchanged |
| AudioEngine.StartAllLoops | script.js:172-195 | with a context and six buffers: six looping sources, one per buffer, loop over [0, shortest duration), so no loop end exceeds its own buffer, and all share the start time now + 0.05; otherwise nothing changes |
| AudioEngine.Retarget | script.js:206-208 | the new ramp starts at now from the channel's value at now, so there is no jump; it heads for the target by the end time, or holds the current value if the ramp call fails |
| AudioEngine.ChannelTarget | script.js:202-204 | the chosen channel heads for its configured volume, every other channel for the floor; the target is missing exactly for the chosen channel when the volume list is too short for it |
| AudioEngine.Skips | script.js:199-200 | a request is skipped without a context, without exactly six channels, or when the level is already current, and never otherwise |
| AudioEngine.SetActiveLevel | script.js:197-213 | without a context, without six channels, or when the level is already current, nothing changes; otherwise every channel re-ramps from its value at now (no jump), channel idx heads for volumes[idx] and every other channel for the floor, all ending at now + xfade, and the current level becomes idx; nothing else changes |
| AudioEngine.StopSound | script.js:254-268 | with a context every channel ramps from its value at now to the floor by now + xfade and the current level becomes -1; without a context nothing changes |
| AudioEngine.RestartReset | script.js:331-335 | the current level becomes -1 and the channels and context are untouched; buffers are loaded exactly when fewer than six were loaded, a context exists and decoding succeeds; with buffers available the loops are restarted in the aligned plan, otherwise sources and loop duration stay as they were |
| AudioEngine.FirstLevelAfterStopRamps | script.js:266 | after a stop, the next request for any level 0..5 is never skipped: it re-ramps every channel and sets the level |
| AudioEngine.FirstLevelAfterRestartRamps | script.js:334-348 | after a restart, the next request for any level 0..5 is never skipped |
| AudioEngine.SetActiveLevelIdempotent | script.js:200 | asking for the same level twice in a row schedules nothing the second time |
| AudioEngine.Step | script.js:226-423 | only starting the game creates the context; before it, no call changes the engine except a restart forgetting the level; with a context and six channels a level update or restart makes its level current; starting the game makes its level current and, from scratch, loads the decoded buffers and starts the aligned loops; winning sets the level to -1 |
| AudioEngine.Run | script.js:324-350 | after a trace the engine has a context exactly when it had one or the trace contains a game start; a trace without a start leaves an unstarted engine unchanged |
| AudioEngine.RunThenStep | script.js:324-350 | running a trace and then one more event equals stepping the trace's end state |
| AudioEngine.LatestLevelWins | script.js:197-213 | once the game has started, the latest level update decides the current level, whatever came before |
| AudioEngine.InitialIsGood | script.js:43-53 | the engine's initial state satisfies the invariant |
| AudioEngine.RetargetStaysPositive | script.js:205-208 | re-ramping a positive, forward-running ramp to a positive target keeps it positive and forward-running |
| AudioEngine.SetActiveLevelKeepsGood | script.js:197-213 | selecting any level 0..5 keeps the invariant |
| AudioEngine.StopSoundKeepsGood | script.js:254-268 | stopping keeps the invariant |
| AudioEngine.StartAllLoopsKeepsGood | script.js:172-195 | restarting the loops keeps the invariant |
| AudioEngine.StepKeepsGood | script.js:226-252 | starting the game, a level update, winning and restarting each keep the invariant |
| AudioEngine.RunKeepsGood | script.js:324-350 | every sequence of game events keeps the invariant |
| AudioEngine.ReachableIsGood | script.js:43-53 | every state reachable from the initial one satisfies the invariant |
| AudioEngine.SettledLevelIsAudible | script.js:201-211 | once every crossfade has ended, the current level's channel is exactly at its volume and every other channel is at the floor, so no channel is stuck mid-ramp |
| AudioEngine.GainsNeverZero | script.js:49 | in any state satisfying the invariant, hence in any reachable one, no channel's gain is ever exactly zero |

## Left out

- DOM and CSS work is not modelled: element placement, cursor styles
  (`updateCursor`, `isPointerInPlayableArea`), message text, the settings
  modal and its `localStorage` persistence. It is presentation with nothing
  to prove.
- The debug canvas (`drawDebug` and its helpers) is not modelled. Its ring
  radii reuse the breakpoint fallback, which `Proximity.EffectiveBreakpoint`
  already covers.
- The browser audio APIs are abstracted:
  - `AudioContext` creation, the 0.7 master gain node, `ctx.resume` and
    `ctx.suspend`, `fetch` and `decodeAudioData`, and source `start`/`stop`.
  - A decoded buffer is only its duration. A failed load is `None`.
  - The suspended clock after `stopSound` is not modelled.
- Web Audio's real automation timeline is not modelled. A gain parameter is
  one linear ramp, and reading `.value` is the ramp's value at `now`.
- `randomizeTarget` is not modelled. It draws from `Math.random` and makes no
  checkable promise.
- `primePointerFromEvent` (seeding the pointer at game start) is not modelled.
  It is input capture.
- `win`'s reveal-size fitting and the image preload are not modelled. They
  are animation layout.
- The `running` flag and the event wiring are not modelled. `AudioEngine.Event`
  lists the engine calls the handlers make, but not which handler may fire
  in which phase.
- Floating point is not modelled. All quantities are reals, so IEEE-754
  rounding is not captured, and `Math.hypot` is an input. The only NaN or
  infinity cases modelled are the zero-`maxDist` closeness cases.
- Configuration entries that are not numbers (a string breakpoint, a NaN
  volume) are not modelled.
- AudioEngine.Step: a game start and a restart are each applied as one atomic
  step. In the code both handlers first await (`setupAudio`, `ctx.resume`,
  `loadBuffers`; script.js:229-232 and 328-332), and other handlers can run
  during those awaits: `onResize`, for example, calls `setActiveLevel`
  without checking `running` (script.js:286). Such interleaved calls are
  ordinary level updates, and each piece keeps the engine invariant on its
  own, but the model does not enumerate those interleavings.
- AudioEngine.SetActiveLevel: the exact targets are stated only for a valid
  configuration (six positive volumes, positive crossfade and floor). For a
  volume list too short for the chosen level, only the fact that the
  channel holds its current value is stated.

=== FILE: audio.dfy ===
/** The continuous loop audio engine: six looping sources, one per proximity
    level, each feeding its own gain channel. Exactly one channel is driven to
    its level's volume and the rest to a small non-zero floor, with a short
    linear crossfade that always starts from the channel's current value.

    A gain parameter is abstracted as one linear ramp: from `startValue` at
    `startTime` to `target` at `endTime`. Reading the parameter's value at time
    t is `ValueAt(ramp, t)`; "cancel scheduled values, set the current value
    now, ramp to the target" replaces the ramp by a new one starting at now.
    The audio clock's current time is passed in as `now`. */
module AudioEngine {

  import opened Maybe
  import Proximity
  import opened RealMath

  /** One gain channel and one looping source per level. */
  const ChannelCount: nat := 6
  /** Loops start this many seconds after the current audio time. */
  const StartDelay: real := 0.05
  /** Loop duration before the buffers are known. */
  const InitialLoopDur: real := 1.2

  datatype Ramp = Ramp(startTime: real, startValue: real, target: real, endTime: real)

  /** The value of a ramp at time t: its start value up to startTime, its
      target from endTime on, and the linear interpolation in between. */
  function ValueAt(r: Ramp, t: real): real
  {
    if t <= r.startTime then r.startValue
    else if t >= r.endTime then r.target
    else r.startValue + (r.target - r.startValue) * ((t - r.startTime) / (r.endTime - r.startTime))
  }

  /** A parameter set directly to v, with no automation. */
  function Steady(v: real): (r: Ramp)
    ensures forall t :: ValueAt(r, t) == v
  {
    Ramp(0.0, v, v, 0.0)
  }

  /** (t - a) / (b - a) lies strictly between 0 and 1 for a < t < b. */
  lemma FractionInUnit(a: real, t: real, b: real)
    requires a < t < b
    ensures 0.0 < (t - a) / (b - a) < 1.0
  {
    var d := b - a;
    var f := (t - a) / d;
    assert f * d == t - a;
    PositiveFactor(f, d);
    var g := 1.0 - f;
    var p := g * d;
    assert p == b - t;
    PositiveFactor(g, d);
  }

  /** A product with a positive factor is positive only if the other factor is. */
  lemma PositiveFactor(x: real, d: real)
    requires d > 0.0 && x * d > 0.0
    ensures x > 0.0
  {
  }

  /** Scaling a non-negative x by f in [0, 1] lands in [0, x]. */
  lemma ScaleDown(x: real, f: real)
    requires x >= 0.0 && 0.0 <= f <= 1.0
    ensures 0.0 <= x * f <= x
  {
  }

  /** s + (g - s) * f lies between s and g for f in [0, 1]. */
  lemma InterpolationBetween(s: real, g: real, f: real)
    requires 0.0 <= f <= 1.0
    ensures Min(s, g) <= s + (g - s) * f <= Max(s, g)
  {
    if s <= g {
      var x := g - s;
      ScaleDown(x, f);
      var p := x * f;
      assert 0.0 <= p <= x;
    } else {
      var x := s - g;
      ScaleDown(x, f);
      var p := x * f;
      assert 0.0 <= p <= x;
      assert (g - s) * f == -p;
    }
  }

  /** A ramp never overshoots: its value always lies between its start value
      and its target. */
  lemma ValueBetween(r: Ramp, t: real)
    requires r.startTime <= r.endTime
    ensures Min(r.startValue, r.target) <= ValueAt(r, t) <= Max(r.startValue, r.target)
  {
    if r.startTime < t < r.endTime {
      FractionInUnit(r.startTime, t, r.endTime);
      InterpolationBetween(r.startValue, r.target, (t - r.startTime) / (r.endTime - r.startTime));
    }
  }

  /** The per-level volumes, the crossfade duration in seconds and the floor gain. */
  datatype AudioConfig = AudioConfig(volumes: seq<real>, xfade: real, minGain: real)

  /** The game's shipped values. */
  const Shipped: AudioConfig := AudioConfig([0.7, 0.8, 0.9, 0.95, 0.98, 1.0], 0.12, 0.0001)

  /** A volume for every level, a positive crossfade, and gains that are never zero. */
  predicate ValidConfig(cfg: AudioConfig)
  {
    && |cfg.volumes| == ChannelCount
    && cfg.xfade > 0.0
    && cfg.minGain > 0.0
    && forall i :: 0 <= i < |cfg.volumes| ==> cfg.volumes[i] > 0.0
  }

  lemma ShippedIsValid()
    ensures ValidConfig(Shipped)
  {
  }

  /** One looping buffer source: which buffer it plays (with that buffer's
      duration), its loop flag and loop window, and when it starts. */
  datatype LoopSource = LoopSource(buffer: nat, bufferDuration: real, loop: bool,
                                   loopStart: real, loopEnd: real, startTime: real)

  /** The engine's state. `context` says whether the audio context exists;
      `buffers` are the decoded buffers' durations; `currentLevel` is the
      level last driven to full volume, -1 for none. */
  datatype Engine = Engine(context: bool, buffers: seq<real>, gains: seq<Ramp>,
                           sources: seq<LoopSource>, loopDur: real, currentLevel: int)

  /** Before the game has started: no context, no buffers, no channels, no level. */
  const Initial: Engine := Engine(false, [], [], [], InitialLoopDur, -1)

  /** The smallest duration, as `Math.min(...durations)`. */
  function MinOf(s: seq<real>): (m: real)
    requires |s| > 0
    ensures m in s
    ensures forall i :: 0 <= i < |s| ==> m <= s[i]
  {
    if |s| == 1 then s[0]
    else
      var rest := MinOf(s[1..]);
      if s[0] <= rest then s[0] else rest
  }

  /** Creating the audio context: six channels, each set to the floor gain.
      Idempotent once a context exists. */
  function SetupAudio(e: Engine, cfg: AudioConfig): (e': Engine)
    ensures e'.context
    ensures e.context ==> e' == e
    ensures !e.context ==> e' == e.(context := true, gains := e'.gains)
    ensures !e.context ==>
              && |e'.gains| == ChannelCount
              && (forall i, t :: 0 <= i < ChannelCount ==> ValueAt(e'.gains[i], t) == cfg.minGain)
    ensures e'.currentLevel == e.currentLevel && e'.sources == e.sources && e'.buffers == e.buffers
  {
    if e.context then e
    else e.(context := true, gains := seq(ChannelCount, _ => Steady(cfg.minGain)))
  }

  /** Loading the six buffers. Nothing happens once six are loaded; without a
      context, or when a fetch or decode fails (None), the error leaves the
      buffers as they were. */
  function LoadBuffers(e: Engine, decoded: Option<seq<real>>): (e': Engine)
    requires decoded.Some? ==> |decoded.value| == ChannelCount
    ensures |e.buffers| == ChannelCount || !e.context || decoded.None? ==> e' == e
    ensures |e.buffers| != ChannelCount && e.context && decoded.Some? ==>
              e' == e.(buffers := decoded.value)
  {
    if |e.buffers| == ChannelCount || !e.context || decoded.None? then e
    else e.(buffers := decoded.value)
  }

  /** The loop plan of `startAllLoops`: one looping source per buffer, all
      starting together, all looping over [0, shortest duration). */
  ghost predicate Aligned(sources: seq<LoopSource>, buffers: seq<real>, loopDur: real)
  {
    && |sources| == |buffers| == ChannelCount
    && loopDur in buffers
    && forall i :: 0 <= i < ChannelCount ==>
         && sources[i].buffer == i
         && sources[i].bufferDuration == buffers[i]
         && sources[i].loop
         && sources[i].loopStart == 0.0
         && sources[i].loopEnd == loopDur
         && loopDur <= sources[i].bufferDuration
         && sources[i].startTime == sources[0].startTime
  }

  /** `startAllLoops`: with a context and six buffers, replaces the previous
      sources by six looping ones that share one start time shortly after
      now and loop over the shortest buffer's duration, so no loop runs past
      its own buffer and all stay phase-aligned. Otherwise nothing changes. */
  function StartAllLoops(e: Engine, now: real): (e': Engine)
    ensures !e.context || |e.buffers| != ChannelCount ==> e' == e
    ensures e.context && |e.buffers| == ChannelCount ==>
              && Aligned(e'.sources, e.buffers, e'.loopDur)
              && e'.sources[0].startTime == now + StartDelay
              && e' == e.(sources := e'.sources, loopDur := e'.loopDur)
  {
    if !e.context || |e.buffers| != ChannelCount then e
    else
      var d := MinOf(e.buffers);
      e.(sources := seq(ChannelCount, i requires 0 <= i < ChannelCount =>
                          LoopSource(i, e.buffers[i], true, 0.0, d, now + StartDelay)),
         loopDur := d)
  }

  /** Cancel pending automation, pin the current value at now, and ramp to
      the target by `end`. A missing target (the ramp call throws after the
      value was pinned) leaves the channel holding its current value. */
  function Retarget(r: Ramp, now: real, end: real, target: Option<real>): (r': Ramp)
    ensures r'.startTime == now && r'.startValue == ValueAt(r, now)
    ensures ValueAt(r', now) == ValueAt(r, now)
    ensures target.Some? ==> r'.target == target.value && r'.endTime == end
    ensures target.None? ==> forall t :: ValueAt(r', t) == ValueAt(r, now)
  {
    var v := ValueAt(r, now);
    match target
    case Some(g) => Ramp(now, v, g, end)
    case None => Ramp(now, v, v, now)
  }

  /** What `setActiveLevel(idx)` asks of channel i: the level's volume for
      the chosen channel (absent when the volume list is too short), the
      floor for every other one. */
  function ChannelTarget(cfg: AudioConfig, i: nat, idx: int): (t: Option<real>)
    ensures t.None? ==> i == idx && |cfg.volumes| <= i
    ensures i != idx ==> t == Some(cfg.minGain)
    ensures i == idx && i < |cfg.volumes| ==> t == Some(cfg.volumes[i])
    ensures i == idx && |cfg.volumes| <= i ==> t.None?
  {
    if i == idx then (if i < |cfg.volumes| then Some(cfg.volumes[i]) else None)
    else Some(cfg.minGain)
  }

  /** `setActiveLevel` returns early without a context, without six
      channels, or when the level is already current. */
  predicate Skips(e: Engine, idx: int): (s: bool)
    ensures !e.context || idx == e.currentLevel ==> s
    ensures |e.gains| != ChannelCount ==> s
    ensures e.context && |e.gains| == ChannelCount && idx != e.currentLevel ==> !s
  {
    !e.context || |e.gains| != ChannelCount || idx == e.currentLevel
  }

  /** `setActiveLevel(idx)`: unless it skips, every channel is re-ramped from
      its value at now, over the crossfade, to the level's volume (channel
      idx) or to the floor (all others), and idx becomes the current level. */
  function SetActiveLevel(e: Engine, cfg: AudioConfig, idx: int, now: real): (e': Engine)
    ensures Skips(e, idx) ==> e' == e
    ensures !Skips(e, idx) ==>
              && e'.currentLevel == idx
              && |e'.gains| == ChannelCount
              && e' == e.(gains := e'.gains, currentLevel := idx)
              && (forall i :: 0 <= i < ChannelCount ==>
                    && e'.gains[i].startTime == now
                    && ValueAt(e'.gains[i], now) == ValueAt(e.gains[i], now))
    ensures !Skips(e, idx) && ValidConfig(cfg) ==>
              forall i :: 0 <= i < ChannelCount ==>
                && e'.gains[i].endTime == now + cfg.xfade
                && e'.gains[i].target == (if i == idx then cfg.volumes[i] else cfg.minGain)
    ensures !Skips(e, idx) && |cfg.volumes| <= idx < ChannelCount ==>
              forall t :: ValueAt(e'.gains[idx], t) == ValueAt(e.gains[idx], now)
  {
    if Skips(e, idx) then e
    else
      e.(gains := seq(ChannelCount, i requires 0 <= i < ChannelCount =>
                        Retarget(e.gains[i], now, now + cfg.xfade, ChannelTarget(cfg, i, idx))),
         currentLevel := idx)
  }

  /** `stopSound`: with a context, every channel ramps from its value at now
      to the floor over the crossfade and the current level becomes none
      (-1); without a context nothing happens. */
  function StopSound(e: Engine, cfg: AudioConfig, now: real): (e': Engine)
    ensures !e.context ==> e' == e
    ensures e.context ==>
              && e'.currentLevel == -1
              && |e'.gains| == |e.gains|
              && e' == e.(gains := e'.gains, currentLevel := -1)
              && forall i :: 0 <= i < |e.gains| ==>
                   && e'.gains[i].startTime == now
                   && ValueAt(e'.gains[i], now) == ValueAt(e.gains[i], now)
                   && e'.gains[i].target == cfg.minGain
                   && e'.gains[i].endTime == now + cfg.xfade
  {
    if !e.context then e
    else
      e.(gains := seq(|e.gains|, i requires 0 <= i < |e.gains| =>
                        Retarget(e.gains[i], now, now + cfg.xfade, Some(cfg.minGain))),
         currentLevel := -1)
  }

  /** The restart handler's engine part before it re-evaluates the level:
      load the buffers if fewer than six, restart all loops in sync, and
      forget the current level. The channels are left as they were. */
  function RestartReset(e: Engine, decoded: Option<seq<real>>, now: real): (e': Engine)
    requires decoded.Some? ==> |decoded.value| == ChannelCount
    ensures e'.currentLevel == -1
    ensures e'.gains == e.gains && e'.context == e.context
    ensures e'.buffers == (if |e.buffers| == ChannelCount || !e.context || decoded.None?
                           then e.buffers else decoded.value)
    ensures e.context && (|e.buffers| == ChannelCount || decoded.Some?) ==>
              Aligned(e'.sources, e'.buffers, e'.loopDur) && e'.sources[0].startTime == now + StartDelay
    ensures !(e.context && (|e.buffers| == ChannelCount || decoded.Some?)) ==>
              e'.sources == e.sources && e'.loopDur == e.loopDur
  {
    var loaded := if |e.buffers| != ChannelCount then LoadBuffers(e, decoded) else e;
    StartAllLoops(loaded, now).(currentLevel := -1)
  }

  /** After a stop, the next level request with any level 0..5 is never
      skipped as redundant: it re-ramps every channel and sets the level. */
  lemma FirstLevelAfterStopRamps(e: Engine, cfg: AudioConfig, now: real, t: real,
                                 level: Proximity.Level)
    requires e.context && |e.gains| == ChannelCount
    ensures var e' := SetActiveLevel(StopSound(e, cfg, now), cfg, level, t);
            e'.currentLevel == level &&
            forall i :: 0 <= i < ChannelCount ==> e'.gains[i].startTime == t
  {
  }

  /** Likewise after a restart. */
  lemma FirstLevelAfterRestartRamps(e: Engine, cfg: AudioConfig, decoded: Option<seq<real>>,
                                    now: real, t: real, level: Proximity.Level)
    requires decoded.Some? ==> |decoded.value| == ChannelCount
    requires e.context && |e.gains| == ChannelCount
    ensures var e' := SetActiveLevel(RestartReset(e, decoded, now), cfg, level, t);
            e'.currentLevel == level &&
            forall i :: 0 <= i < ChannelCount ==> e'.gains[i].startTime == t
  {
  }

  /** Asking twice in a row for the same level schedules nothing the second time. */
  lemma SetActiveLevelIdempotent(e: Engine, cfg: AudioConfig, idx: int, t1: real, t2: real)
    ensures var e1 := SetActiveLevel(e, cfg, idx, t1);
            SetActiveLevel(e1, cfg, idx, t2) == e1
  {
  }

  /** Calls the rest of the game makes into the engine. */
  datatype Event =
    | StartGame(decoded: Option<seq<real>>, now: real, level: Proximity.Level)
    | LevelUpdate(level: Proximity.Level, now: real)
    | Win(now: real)
    | Restart(decoded: Option<seq<real>>, now: real, level: Proximity.Level)

  /** Decoding yields a positive duration for each of the six files. */
  predicate GoodDecode(decoded: Option<seq<real>>)
  {
    decoded.Some? ==>
      |decoded.value| == ChannelCount &&
      forall i :: 0 <= i < |decoded.value| ==> decoded.value[i] > 0.0
  }

  predicate GoodEvent(ev: Event)
  {
    match ev
    case StartGame(decoded, _, _) => GoodDecode(decoded)
    case Restart(decoded, _, _) => GoodDecode(decoded)
    case _ => true
  }

  /** One event's effect: starting sets up the context, loads the buffers,
      starts the loops and selects the level; a level update (pointer move,
      resize, keyboard nudge) selects a level; winning stops the sound;
      restarting resets and selects the level. */
  function Step(e: Engine, cfg: AudioConfig, ev: Event): (e': Engine)
    requires GoodEvent(ev)
    ensures e'.context == (e.context || ev.StartGame?)
    ensures !e.context && !ev.StartGame? ==>
              e' == e.(currentLevel := if ev.Restart? then -1 else e.currentLevel)
    ensures ev.StartGame? && (!e.context || |e.gains| == ChannelCount) ==>
              e'.currentLevel == ev.level
    ensures (ev.LevelUpdate? || ev.Restart?) && e.context && |e.gains| == ChannelCount ==>
              e'.currentLevel == ev.level
    ensures ev.Win? && e.context ==> e'.currentLevel == -1
    ensures ev.StartGame? && !e.context && |e.buffers| != ChannelCount && ev.decoded.Some? ==>
              e'.buffers == ev.decoded.value && Aligned(e'.sources, e'.buffers, e'.loopDur)
  {
    match ev
    case StartGame(decoded, now, level) =>
      SetActiveLevel(StartAllLoops(LoadBuffers(SetupAudio(e, cfg), decoded), now), cfg, level, now)
    case LevelUpdate(level, now) => SetActiveLevel(e, cfg, level, now)
    case Win(now) => StopSound(e, cfg, now)
    case Restart(decoded, now, level) =>
      SetActiveLevel(RestartReset(e, decoded, now), cfg, level, now)
  }

  function Run(e: Engine, cfg: AudioConfig, evs: seq<Event>): (r: Engine)
    requires forall k :: 0 <= k < |evs| ==> GoodEvent(evs[k])
    ensures r.context <==> e.context || exists k :: 0 <= k < |evs| && evs[k].StartGame?
    ensures (&& !e.context && e.currentLevel == -1
             && forall k :: 0 <= k < |evs| ==> !evs[k].StartGame?) ==> r == e
    decreases |evs|
  {
    if |evs| == 0 then e else Run(Step(e, cfg, evs[0]), cfg, evs[1..])
  }

  /** Running a trace and then one more event is stepping the trace's end state. */
  lemma {:induction false} RunThenStep(e: Engine, cfg: AudioConfig, evs: seq<Event>, ev: Event)
    requires forall k :: 0 <= k < |evs| ==> GoodEvent(evs[k])
    requires GoodEvent(ev)
    ensures forall k :: 0 <= k < |evs + [ev]| ==> GoodEvent((evs + [ev])[k])
    ensures Run(e, cfg, evs + [ev]) == Step(Run(e, cfg, evs), cfg, ev)
    decreases |evs|
  {
    assert forall k :: 0 <= k < |evs + [ev]| ==> GoodEvent((evs + [ev])[k]) by {
      forall k | 0 <= k < |evs + [ev]| ensures GoodEvent((evs + [ev])[k]) {
        if k < |evs| { assert (evs + [ev])[k] == evs[k]; }
      }
    }
    if |evs| > 0 {
      assert (evs + [ev])[0] == evs[0];
      assert (evs + [ev])[1..] == evs[1..] + [ev];
      RunThenStep(Step(e, cfg, evs[0]), cfg, evs[1..], ev);
    } else {
      assert evs + [ev] == [ev];
    }
  }

  /** The engine's invariant. Without a context it is in its initial shape.
      With one, there are six channels whose ramps run forward in time and
      never reach zero; when a level is current, its channel is headed for
      that level's volume and every other channel for the floor. Buffers are
      either absent or six positive durations, and sources, once created,
      follow the aligned loop plan. */
  ghost predicate Good(e: Engine, cfg: AudioConfig)
  {
    && ValidConfig(cfg)
    && (!e.context ==> e.gains == [] && e.sources == [] && e.currentLevel == -1)
    && (e.context ==> |e.gains| == ChannelCount)
    && -1 <= e.currentLevel <= 5
    && (forall i :: 0 <= i < |e.gains| ==>
          && e.gains[i].startTime <= e.gains[i].endTime
          && e.gains[i].startValue > 0.0
          && e.gains[i].target > 0.0)
    && (0 <= e.currentLevel ==> forall i :: 0 <= i < |e.gains| ==>
          e.gains[i].target == (if i == e.currentLevel then cfg.volumes[i] else cfg.minGain))
    && (e.buffers == [] || (|e.buffers| == ChannelCount &&
          forall i :: 0 <= i < |e.buffers| ==> e.buffers[i] > 0.0))
    && (e.sources == [] || Aligned(e.sources, e.buffers, e.loopDur))
  }

  lemma InitialIsGood(cfg: AudioConfig)
    requires ValidConfig(cfg)
    ensures Good(Initial, cfg)
  {
  }

  /** Retargeting a positive ramp that runs forward in time to a positive
      target gives a positive ramp that runs forward in time. */
  lemma RetargetStaysPositive(r: Ramp, now: real, end: real, target: Option<real>)
    requires r.startTime <= r.endTime && r.startValue > 0.0 && r.target > 0.0
    requires now <= end
    requires target.Some? ==> target.value > 0.0
    ensures var r' := Retarget(r, now, end, target);
            r'.startTime <= r'.endTime && r'.startValue > 0.0 && r'.target > 0.0
  {
    ValueBetween(r, now);
  }

  lemma {:induction false} SetActiveLevelKeepsGood(e: Engine, cfg: AudioConfig,
                                                   level: Proximity.Level, now: real)
    requires ValidConfig(cfg) && Good(e, cfg)
    ensures Good(SetActiveLevel(e, cfg, level, now), cfg)
  {
    if !Skips(e, level) {
      forall i | 0 <= i < ChannelCount
        ensures var r' := SetActiveLevel(e, cfg, level, now).gains[i];
                r'.startTime <= r'.endTime && r'.startValue > 0.0 && r'.target > 0.0
      {
        RetargetStaysPositive(e.gains[i], now, now + cfg.xfade, ChannelTarget(cfg, i, level));
      }
    }
  }

  lemma {:induction false} StopSoundKeepsGood(e: Engine, cfg: AudioConfig, now: real)
    requires ValidConfig(cfg) && Good(e, cfg)
    ensures Good(StopSound(e, cfg, now), cfg)
  {
    if e.context {
      forall i | 0 <= i < |e.gains|
        ensures var r' := StopSound(e, cfg, now).gains[i];
                r'.startTime <= r'.endTime && r'.startValue > 0.0 && r'.target > 0.0
      {
        RetargetStaysPositive(e.gains[i], now, now + cfg.xfade, Some(cfg.minGain));
      }
    }
  }

  lemma {:induction false} StartAllLoopsKeepsGood(e: Engine, cfg: AudioConfig, now: real)
    requires Good(e, cfg)
    ensures Good(StartAllLoops(e, now), cfg)
  {
  }

  lemma {:induction false} StepKeepsGood(e: Engine, cfg: AudioConfig, ev: Event)
    requires ValidConfig(cfg) && Good(e, cfg) && GoodEvent(ev)
    ensures Good(Step(e, cfg, ev), cfg)
  {
    match ev
    case StartGame(decoded, now, level) =>
      var e1 := SetupAudio(e, cfg);
      assert Good(e1, cfg);
      var e2 := LoadBuffers(e1, decoded);
      assert Good(e2, cfg);
      StartAllLoopsKeepsGood(e2, cfg, now);
      SetActiveLevelKeepsGood(StartAllLoops(e2, now), cfg, level, now);
    case LevelUpdate(level, now) =>
      SetActiveLevelKeepsGood(e, cfg, level, now);
    case Win(now) =>
      StopSoundKeepsGood(e, cfg, now);
    case Restart(decoded, now, level) =>
      var e1 := if |e.buffers| != ChannelCount then LoadBuffers(e, decoded) else e;
      assert Good(e1, cfg);
      StartAllLoopsKeepsGood(e1, cfg, now);
      SetActiveLevelKeepsGood(RestartReset(e, decoded, now), cfg, level, now);
  }

  /** Every sequence of game events keeps the engine's invariant. */
  lemma {:induction false} RunKeepsGood(e: Engine, cfg: AudioConfig, evs: seq<Event>)
    requires ValidConfig(cfg) && Good(e, cfg)
    requires forall k :: 0 <= k < |evs| ==> GoodEvent(evs[k])
    ensures Good(Run(e, cfg, evs), cfg)
    decreases |evs|
  {
    if |evs| > 0 {
      StepKeepsGood(e, cfg, evs[0]);
      RunKeepsGood(Step(e, cfg, evs[0]), cfg, evs[1..]);
    }
  }

  /** Once every crossfade has finished, the current level's channel plays at
      exactly that level's volume and every other channel sits at the floor:
      no channel is left stuck mid-ramp, however bursty the calls were. */
  lemma SettledLevelIsAudible(e: Engine, cfg: AudioConfig, t: real)
    requires Good(e, cfg) && e.context && 0 <= e.currentLevel
    requires forall i :: 0 <= i < ChannelCount ==>
               t >= e.gains[i].endTime && t > e.gains[i].startTime
    ensures forall i :: 0 <= i < ChannelCount ==>
              ValueAt(e.gains[i], t) == (if i == e.currentLevel then cfg.volumes[i] else cfg.minGain)
  {
  }

  /** In a good state no channel's gain is ever exactly zero. */
  lemma GainsNeverZero(e: Engine, cfg: AudioConfig, i: nat, t: real)
    requires Good(e, cfg) && i < |e.gains|
    ensures ValueAt(e.gains[i], t) > 0.0
  {
  }

  /** Once the game has started, the latest level update decides the current
      level, whatever came before it. */
  lemma LatestLevelWins(cfg: AudioConfig, evs: seq<Event>, level: Proximity.Level, now: real)
    requires ValidConfig(cfg)
    requires forall k :: 0 <= k < |evs| ==> GoodEvent(evs[k])
    requires exists k :: 0 <= k < |evs| && evs[k].StartGame?
    ensures forall k :: 0 <= k < |evs + [LevelUpdate(level, now)]| ==>
              GoodEvent((evs + [LevelUpdate(level, now)])[k])
    ensures Run(Initial, cfg, evs + [LevelUpdate(level, now)]).currentLevel == level
  {
    RunThenStep(Initial, cfg, evs, LevelUpdate(level, now));
    ReachableIsGood(cfg, evs);
  }

  /** Everything the game can do to the engine, starting from scratch, ends
      in a good state. */
  lemma ReachableIsGood(cfg: AudioConfig, evs: seq<Event>)
    requires ValidConfig(cfg)
    requires forall k :: 0 <= k < |evs| ==> GoodEvent(evs[k])
    ensures Good(Run(Initial, cfg, evs), cfg)
  {
    InitialIsGood(cfg);
    RunKeepsGood(Initial, cfg, evs);
  }
}

=== FILE: geometry.dfy ===
/** Screen geometry of the finder game: clamping, the playable rectangle the
    target lives in, re-clamping the target on resize, keyboard nudging of the
    pointer and the fallback of an unset pointer to the viewport centre.
    All coordinates are CSS pixels modelled as reals. */
module Geometry {

  import opened Maybe
  import opened RealMath

  datatype Point = Point(x: real, y: real)

  /** An axis-aligned rectangle given by its top-left corner and its size. */
  datatype Rect = Rect(x: real, y: real, w: real, h: real)

  /** The `playArea` block of the game's configuration; either entry may be absent. */
  datatype PlayAreaConfig = PlayAreaConfig(margin: Option<real>, hudPadding: Option<real>)

  const DefaultMargin: real := 24.0
  const DefaultHudPadding: real := 12.0
  /** Side of the square target element, in pixels. */
  const TargetSize: real := 48.0
  /** Extra keep-out around the target's centre: 10 px plus half the target. */
  const TargetPad: real := 10.0 + TargetSize / 2.0
  /** The pointer's initial, off-screen position before any interaction. */
  const Sentinel: Point := Point(-9999.0, -9999.0)

  /** `Math.max(lo, Math.min(hi, n))`. When the interval is empty (lo > hi)
      the lower bound wins. */
  function Clamp(n: real, lo: real, hi: real): (r: real)
    ensures lo <= hi ==> lo <= r <= hi
    ensures lo <= n <= hi ==> r == n
    ensures hi < lo ==> r == lo
  {
    Max(lo, Min(hi, n))
  }

  /** On a non-empty interval, clamping picks the point of the interval nearest to n. */
  lemma ClampIsNearest(n: real, lo: real, hi: real, y: real)
    requires lo <= hi && lo <= y <= hi
    ensures Abs(Clamp(n, lo, hi) - n) <= Abs(y - n)
  {
  }

  /** JavaScript's `v || d` for a number: a missing value, and also a
      configured zero, fall back to the default. */
  function OrDefault(v: Option<real>, d: real): (r: real)
    ensures r == d || (v.Some? && r == v.value)
    ensures v.Some? && v.value != 0.0 ==> r == v.value
    ensures v.None? || v.value == 0.0 ==> r == d
  {
    if v.None? || v.value == 0.0 then d else v.value
  }

  /** A margin configured as exactly 0 is silently replaced by the 24 px default. */
  lemma ZeroMarginFallsBack()
    ensures OrDefault(Some(0.0), DefaultMargin) == 24.0
  {
  }

  /** The rectangle in which targets are placed: inset from every viewport
      edge by the margin plus the target pad, and, when the HUD element is
      present (its bottom edge given), pushed below the HUD plus its padding.
      The size is never negative. */
  function PlayableArea(innerWidth: real, innerHeight: real, hudBottom: Option<real>,
                        cfg: PlayAreaConfig): (a: Rect)
    ensures a.w >= 0.0 && a.h >= 0.0
    ensures a.x == OrDefault(cfg.margin, DefaultMargin) + TargetPad
    ensures a.y >= OrDefault(cfg.margin, DefaultMargin) + TargetPad
    ensures hudBottom.Some? ==>
              a.y >= hudBottom.value + OrDefault(cfg.hudPadding, DefaultHudPadding) + TargetPad
    ensures a.w > 0.0 ==> a.x + a.w == innerWidth - OrDefault(cfg.margin, DefaultMargin) - TargetPad
    ensures a.h > 0.0 ==> a.y + a.h == innerHeight - OrDefault(cfg.margin, DefaultMargin) - TargetPad
    ensures a.w == 0.0 ==> innerWidth - OrDefault(cfg.margin, DefaultMargin) - TargetPad <= a.x
    ensures a.h == 0.0 ==> innerHeight - OrDefault(cfg.margin, DefaultMargin) - TargetPad <= a.y
    ensures a.y == OrDefault(cfg.margin, DefaultMargin) + TargetPad ||
            (hudBottom.Some? &&
             a.y == hudBottom.value + OrDefault(cfg.hudPadding, DefaultHudPadding) + TargetPad)
  {
    var m := OrDefault(cfg.margin, DefaultMargin);
    var hudPad := OrDefault(cfg.hudPadding, DefaultHudPadding);
    var x0 := m + TargetPad;
    var y0 := if hudBottom.Some? then Max(m + TargetPad, hudBottom.value + hudPad + TargetPad)
              else m + TargetPad;
    var x1 := innerWidth - m - TargetPad;
    var y1 := innerHeight - m - TargetPad;
    Rect(x0, y0, Max(0.0, x1 - x0), Max(0.0, y1 - y0))
  }

  predicate InRect(p: Point, r: Rect)
  {
    r.x <= p.x <= r.x + r.w && r.y <= p.y <= r.y + r.h
  }

  /** Every point of a non-degenerate playable area keeps the margin plus the
      target pad from all four viewport edges, and stays clear of the HUD. */
  lemma PlayableAreaKeepsClear(innerWidth: real, innerHeight: real, hudBottom: Option<real>,
                               cfg: PlayAreaConfig, p: Point)
    requires var a := PlayableArea(innerWidth, innerHeight, hudBottom, cfg);
             a.w > 0.0 && a.h > 0.0 && InRect(p, a)
    ensures var m := OrDefault(cfg.margin, DefaultMargin);
            m + TargetPad <= p.x <= innerWidth - m - TargetPad &&
            m + TargetPad <= p.y <= innerHeight - m - TargetPad
    ensures hudBottom.Some? ==>
              p.y >= hudBottom.value + OrDefault(cfg.hudPadding, DefaultHudPadding) + TargetPad
  {
  }

  /** The resize handler's re-clamp of the target into the playable area
      (a negative size is treated as zero). */
  function ClampTarget(t: Point, a: Rect): (r: Point)
    ensures a.x <= r.x <= a.x + Max(0.0, a.w)
    ensures a.y <= r.y <= a.y + Max(0.0, a.h)
    ensures InRect(t, a) ==> r == t
    ensures a.x <= t.x <= a.x + Max(0.0, a.w) ==> r.x == t.x
    ensures a.y <= t.y <= a.y + Max(0.0, a.h) ==> r.y == t.y
  {
    Point(Clamp(t.x, a.x, a.x + Max(0.0, a.w)), Clamp(t.y, a.y, a.y + Max(0.0, a.h)))
  }

  /** Each axis is clamped on its own: along each axis the re-clamped target
      is the point of the area nearest to where the target was. */
  lemma ClampTargetIsNearest(t: Point, a: Rect, y: Point)
    requires InRect(y, a)
    ensures Abs(ClampTarget(t, a).x - t.x) <= Abs(y.x - t.x)
    ensures Abs(ClampTarget(t, a).y - t.y) <= Abs(y.y - t.y)
  {
    ClampIsNearest(t.x, a.x, a.x + Max(0.0, a.w), y.x);
    ClampIsNearest(t.y, a.y, a.y + Max(0.0, a.h), y.y);
  }

  /** After a resize the target lies inside the new playable area, and a
      second resize to the same viewport does not move it again. */
  lemma ResizeKeepsTargetInArea(t: Point, innerWidth: real, innerHeight: real,
                                hudBottom: Option<real>, cfg: PlayAreaConfig)
    ensures var a := PlayableArea(innerWidth, innerHeight, hudBottom, cfg);
            InRect(ClampTarget(t, a), a) && ClampTarget(ClampTarget(t, a), a) == ClampTarget(t, a)
  {
  }

  datatype Key = ArrowLeft | ArrowRight | ArrowUp | ArrowDown | OtherKey

  /** Pixels one arrow key press moves the virtual pointer: 12 with Shift, else 6. */
  function NudgeStep(shift: bool): real { if shift then 12.0 else 6.0 }

  /** The pointer after moving one step in the arrow's direction, before clamping. */
  function Moved(p: Point, key: Key, step: real): Point
  {
    match key
    case ArrowLeft => p.(x := p.x - step)
    case ArrowRight => p.(x := p.x + step)
    case ArrowUp => p.(y := p.y - step)
    case ArrowDown => p.(y := p.y + step)
    case OtherKey => p
  }

  predicate InViewport(p: Point, innerWidth: real, innerHeight: real)
  {
    0.0 <= p.x <= innerWidth && 0.0 <= p.y <= innerHeight
  }

  /** The keyboard handler: an arrow key moves the pointer one step and then
      clamps both coordinates into the viewport; any other key is not used
      (None). */
  function Nudge(p: Point, key: Key, shift: bool, innerWidth: real, innerHeight: real)
    : (r: Option<Point>)
    ensures r.None? <==> key == OtherKey
    ensures r.Some? && innerWidth >= 0.0 && innerHeight >= 0.0 ==>
              InViewport(r.value, innerWidth, innerHeight)
    ensures r.Some? && InViewport(Moved(p, key, NudgeStep(shift)), innerWidth, innerHeight) ==>
              r.value == Moved(p, key, NudgeStep(shift))
    ensures r.Some? ==>
              var q := Moved(p, key, NudgeStep(shift));
              r.value == Point(Clamp(q.x, 0.0, innerWidth), Clamp(q.y, 0.0, innerHeight))
  {
    if key == OtherKey then None
    else
      var q := Moved(p, key, NudgeStep(shift));
      Some(Point(Clamp(q.x, 0.0, innerWidth), Clamp(q.y, 0.0, innerHeight)))
  }

  /** Along each axis the nudged pointer is the viewport point nearest to
      where the step would have taken it. */
  lemma NudgeLandsNearest(p: Point, key: Key, shift: bool, innerWidth: real, innerHeight: real,
                          y: Point)
    requires key != OtherKey && InViewport(y, innerWidth, innerHeight)
    ensures var q := Moved(p, key, NudgeStep(shift));
            var r := Nudge(p, key, shift, innerWidth, innerHeight).value;
            Abs(r.x - q.x) <= Abs(y.x - q.x) && Abs(r.y - q.y) <= Abs(y.y - q.y)
  {
    var q := Moved(p, key, NudgeStep(shift));
    ClampIsNearest(q.x, 0.0, innerWidth, y.x);
    ClampIsNearest(q.y, 0.0, innerHeight, y.y);
  }

  /** Nudging left and then right with the same step returns the pointer to
      where it was, as long as the first nudge stayed inside the viewport. */
  lemma NudgeLeftRightRoundTrip(p: Point, shift: bool, innerWidth: real, innerHeight: real)
    requires InViewport(p, innerWidth, innerHeight)
    requires p.x - NudgeStep(shift) >= 0.0
    ensures var l := Nudge(p, ArrowLeft, shift, innerWidth, innerHeight);
            l.Some? && Nudge(l.value, ArrowRight, shift, innerWidth, innerHeight) == Some(p)
  {
  }

  /** JavaScript's `Math.round`: the nearest integer, halves rounded up. */
  function RoundHalfUp(v: real): (r: int)
    ensures v - 0.5 < r as real <= v + 0.5
  {
    (v + 0.5).Floor
  }

  /** The point distances are measured from: the pointer itself, or, while it
      still has a negative coordinate (the off-screen sentinel), the rounded
      centre of the viewport. */
  function EffectivePointer(p: Point, innerWidth: real, innerHeight: real): (r: Point)
    ensures p.x >= 0.0 && p.y >= 0.0 ==> r == p
    ensures p.x < 0.0 || p.y < 0.0 ==>
              r == Point(RoundHalfUp(innerWidth / 2.0) as real, RoundHalfUp(innerHeight / 2.0) as real)
    ensures p.x < 0.0 || p.y < 0.0 ==>
              Abs(r.x - innerWidth / 2.0) <= 0.5 && Abs(r.y - innerHeight / 2.0) <= 0.5
    ensures innerWidth >= 0.0 && innerHeight >= 0.0 ==> r.x >= 0.0 && r.y >= 0.0
  {
    if p.x < 0.0 || p.y < 0.0 then
      Point(RoundHalfUp(innerWidth / 2.0) as real, RoundHalfUp(innerHeight / 2.0) as real)
    else p
  }

  /** Before the first interaction the distance is taken from the viewport centre. */
  lemma SentinelUsesCentre(innerWidth: real, innerHeight: real)
    requires innerWidth >= 0.0 && innerHeight >= 0.0
    ensures var c := EffectivePointer(Sentinel, innerWidth, innerHeight);
            InViewport(c, innerWidth, innerHeight) && Abs(c.x - innerWidth / 2.0) <= 0.5
  {
  }
}

=== FILE: maybe.dfy ===
/** Small option type for values the game's configuration or the page may lack
    (a missing breakpoint, a missing HUD element, an unset margin). */
module Maybe {

  datatype Option<+T> = None | Some(value: T)
}

=== FILE: proximity.dfy ===
/** The proximity classifier: a pointer-to-target distance becomes one of six
    loudness levels, 0 (far) to 5 (closest), through a normalised "closeness"
    in [0, 1] and five configurable breakpoints. A separate reveal radius
    decides whether the pointer is near enough to reveal the target. */
module Proximity {

  import opened Maybe
  import opened Geometry

  /** A proximity level: 0 is farthest, 5 closest. */
  type Level = l: int | 0 <= l <= 5

  /** Number of breakpoints scanned; level 5 is returned when none is exceeded. */
  const BreakpointCount: nat := 5

  /** The classifier's configuration. A breakpoint entry may be absent
      (a short list, or a null/undefined hole). */
  datatype ClassifierConfig = ClassifierConfig(
    maxDistanceFactor: real,
    levelBreakpoints: seq<Option<real>>,
    revealRadius: real)

  /** The game's shipped tuning: factor 0.75, breakpoints 1/6, 3.4/6, 4.5/6,
      5.2/6, 5.7/6 and a 15 px reveal radius. */
  const Configured: ClassifierConfig := ClassifierConfig(
    0.75,
    [Some(1.0 / 6.0), Some(3.4 / 6.0), Some(4.5 / 6.0), Some(5.2 / 6.0), Some(5.7 / 6.0)],
    15.0)

  /** Breakpoint i as the scan uses it: the configured entry, or (i+1)/6 when it is missing. */
  function EffectiveBreakpoint(bp: seq<Option<real>>, i: nat): (b: real)
    ensures i < |bp| && bp[i].Some? ==> b == bp[i].value
    ensures i >= |bp| || bp[i].None? ==> b == (i + 1) as real / 6.0
  {
    if i < |bp| && bp[i].Some? then bp[i].value else (i + 1) as real / 6.0
  }

  /** Effective breakpoints strictly increase, as the "boundaries between
      levels 0-1, 1-2, ..., 4-5" reading of the configuration intends. */
  ghost predicate Ascending(bp: seq<Option<real>>)
  {
    forall i, j :: 0 <= i < j < BreakpointCount ==>
      EffectiveBreakpoint(bp, i) < EffectiveBreakpoint(bp, j)
  }

  /** r is the level of closeness c: every breakpoint before index r is at
      most c, and breakpoint r (if r < 5) exceeds c. */
  ghost predicate IsLevelOf(c: real, bp: seq<Option<real>>, r: int)
  {
    && 0 <= r <= 5
    && (forall j :: 0 <= j < r ==> EffectiveBreakpoint(bp, j) <= c)
    && (r < 5 ==> c < EffectiveBreakpoint(bp, r))
  }

  /** The breakpoint scan from index i on: the index of the first breakpoint
      exceeding c, or 5 when none does. */
  function ScanFrom(c: real, bp: seq<Option<real>>, i: nat): (r: Level)
    requires i <= BreakpointCount
    ensures i <= r
    ensures forall j :: i <= j < r ==> EffectiveBreakpoint(bp, j) <= c
    ensures r < 5 ==> c < EffectiveBreakpoint(bp, r)
    decreases BreakpointCount - i
  {
    if i == BreakpointCount then 5
    else if c < EffectiveBreakpoint(bp, i) then i
    else ScanFrom(c, bp, i + 1)
  }

  /** The level of a closeness value, for any breakpoint list. */
  function LevelOfCloseness(c: real, bp: seq<Option<real>>): (r: Level)
    ensures IsLevelOf(c, bp, r)
  {
    ScanFrom(c, bp, 0)
  }

  /** The level is the only value satisfying its characterisation. */
  lemma LevelIsUnique(c: real, bp: seq<Option<real>>, r: int)
    requires IsLevelOf(c, bp, r)
    ensures r == LevelOfCloseness(c, bp)
  {
  }

  /** Greater closeness never gives a lower level, whatever the breakpoints. */
  lemma LevelMonotoneInCloseness(c1: real, c2: real, bp: seq<Option<real>>)
    requires c1 <= c2
    ensures LevelOfCloseness(c1, bp) <= LevelOfCloseness(c2, bp)
  {
  }

  /** With ascending breakpoints, level k is exactly the closeness band
      [breakpoint k-1, breakpoint k), with open ends at levels 0 and 5. */
  lemma LevelIsBand(c: real, bp: seq<Option<real>>, k: Level)
    requires Ascending(bp)
    ensures LevelOfCloseness(c, bp) == k <==>
              (k == 0 || EffectiveBreakpoint(bp, k - 1) <= c) &&
              (k == 5 || c < EffectiveBreakpoint(bp, k))
  {
  }

  /** Only the first five entries are read: anything after them never changes a level. */
  lemma TrailingEntriesIgnored(c: real, bp: seq<Option<real>>, extra: seq<Option<real>>)
    requires |bp| >= BreakpointCount
    ensures LevelOfCloseness(c, bp + extra) == LevelOfCloseness(c, bp)
  {
    forall i | 0 <= i < BreakpointCount
      ensures EffectiveBreakpoint(bp + extra, i) == EffectiveBreakpoint(bp, i)
    {
      assert (bp + extra)[i] == bp[i];
    }
    LevelIsUnique(c, bp + extra, LevelOfCloseness(c, bp));
  }

  /** A list cut short reads like one whose missing entries were written out as (i+1)/6. */
  lemma ShortListUsesSixths(c: real, bp: seq<Option<real>>)
    requires |bp| < BreakpointCount
    ensures LevelOfCloseness(c, bp) ==
            LevelOfCloseness(c, bp + seq(BreakpointCount - |bp|, k => Some((|bp| + k + 1) as real / 6.0)))
  {
    var full := bp + seq(BreakpointCount - |bp|, k => Some((|bp| + k + 1) as real / 6.0));
    forall i | 0 <= i < BreakpointCount
      ensures EffectiveBreakpoint(full, i) == EffectiveBreakpoint(bp, i)
    {
      if i >= |bp| {
        assert full[i] == Some((|bp| + (i - |bp|) + 1) as real / 6.0);
      } else {
        assert full[i] == bp[i];
      }
    }
    LevelIsUnique(c, full, LevelOfCloseness(c, bp));
  }

  /** Closeness of a distance: `clamp(1 - dist / maxDist, 0, 1)`. With a zero
      maxDist the division gives +Infinity for a positive distance, which
      clamps to 0; the 0/0 case is excluded here and handled by the caller. */
  function Closeness(dist: real, maxDist: real): (c: real)
    requires dist >= 0.0
    requires maxDist != 0.0 || dist > 0.0
    ensures 0.0 <= c <= 1.0
    ensures maxDist > 0.0 && dist >= maxDist ==> c == 0.0
    ensures dist == 0.0 ==> c == 1.0
    ensures maxDist > 0.0 && dist <= maxDist ==> c == 1.0 - dist / maxDist
    ensures maxDist < 0.0 ==> c == 1.0
    ensures maxDist == 0.0 ==> c == 0.0
  {
    if maxDist == 0.0 then 0.0
    else
      var q := dist / maxDist;
      assert maxDist > 0.0 && dist <= maxDist ==> 0.0 <= q <= 1.0 by {
        if maxDist > 0.0 && dist <= maxDist {
          DivideBelow(dist, 1.0, maxDist);
        }
      }
      Clamp(1.0 - q, 0.0, 1.0)
  }

  /** The classifier. When maxDist and the distance are both zero the
      closeness is NaN, no `<` comparison holds, and the scan falls through
      to level 5. */
  function LevelFromDistance(dist: real, maxDist: real, bp: seq<Option<real>>): (r: Level)
    requires dist >= 0.0
    ensures maxDist != 0.0 || dist > 0.0 ==> IsLevelOf(Closeness(dist, maxDist), bp, r)
    ensures maxDist == 0.0 && dist == 0.0 ==> r == 5
  {
    if maxDist == 0.0 && dist == 0.0 then 5
    else LevelOfCloseness(Closeness(dist, maxDist), bp)
  }

  /** The distance at which closeness reaches 0: the viewport diagonal scaled by the factor. */
  function MaxLevelDistance(diagonal: real, factor: real): (r: real)
    requires diagonal >= 0.0
    ensures factor >= 0.0 ==> r >= 0.0
    ensures factor > 0.0 && diagonal > 0.0 ==> r > 0.0
    ensures diagonal > 0.0 ==> r / diagonal == factor
    ensures diagonal == 0.0 ==> r == 0.0
  {
    if diagonal > 0.0 then
      DivideExact(diagonal * factor, diagonal, factor);
      diagonal * factor
    else diagonal * factor
  }

  /** A quotient is the number whose product with the divisor gives the dividend. */
  lemma DivideExact(x: real, m: real, q: real)
    requires m != 0.0 && q * m == x
    ensures x / m == q
  {
    var d := x / m;
    assert d * m == x;
    assert (d - q) * m == 0.0;
  }

  /** Distances are measured relative to the viewport: scaling the viewport
      and the distance by the same positive factor leaves the level unchanged. */
  lemma LevelIsScaleFree(dist: real, diagonal: real, factor: real, k: real, bp: seq<Option<real>>)
    requires dist >= 0.0 && diagonal >= 0.0 && k > 0.0
    ensures LevelFromDistance(k * dist, MaxLevelDistance(k * diagonal, factor), bp) ==
            LevelFromDistance(dist, MaxLevelDistance(diagonal, factor), bp)
  {
    var m := MaxLevelDistance(diagonal, factor);
    var km := MaxLevelDistance(k * diagonal, factor);
    assert km == k * m;
    if m != 0.0 {
      assert km != 0.0;
      var q := dist / m;
      assert q * m == dist;
      assert q * km == k * (q * m);
      DivideExact(k * dist, km, q);
    } else {
      assert km == 0.0;
    }
  }

  /** Distance zero is the loudest level whenever no effective breakpoint exceeds 1. */
  lemma ZeroDistanceIsLoudest(maxDist: real, bp: seq<Option<real>>)
    requires forall i :: 0 <= i < BreakpointCount ==> EffectiveBreakpoint(bp, i) <= 1.0
    ensures LevelFromDistance(0.0, maxDist, bp) == 5
  {
  }

  /** At or beyond maxDist the level is 0, provided the first effective
      breakpoint is positive. */
  lemma FarIsLevelZero(dist: real, maxDist: real, bp: seq<Option<real>>)
    requires maxDist > 0.0 && dist >= maxDist
    requires EffectiveBreakpoint(bp, 0) > 0.0
    ensures LevelFromDistance(dist, maxDist, bp) == 0
  {
  }

  /** Closeness does not increase with distance for a fixed positive maxDist. */
  lemma ClosenessAntitone(d1: real, d2: real, maxDist: real)
    requires 0.0 <= d1 <= d2 && maxDist > 0.0
    ensures Closeness(d1, maxDist) >= Closeness(d2, maxDist)
  {
    assert d1 / maxDist <= d2 / maxDist by {
      assert d2 / maxDist - d1 / maxDist == (d2 - d1) / maxDist;
    }
  }

  /** Moving closer never lowers the level: the level is non-increasing in
      distance, for any breakpoint list and any non-negative maxDist. */
  lemma LevelAntitoneInDistance(d1: real, d2: real, maxDist: real, bp: seq<Option<real>>)
    requires 0.0 <= d1 <= d2
    ensures LevelFromDistance(d1, maxDist, bp) >= LevelFromDistance(d2, maxDist, bp)
  {
    if maxDist > 0.0 {
      ClosenessAntitone(d1, d2, maxDist);
      LevelMonotoneInCloseness(Closeness(d2, maxDist), Closeness(d1, maxDist), bp);
    } else if d1 > 0.0 {
      LevelMonotoneInCloseness(Closeness(d2, maxDist), Closeness(d1, maxDist), bp);
    }
  }

  /** The shipped breakpoints lie strictly inside (0, 1) and ascend, and so
      does the fallback used for an empty list. */
  lemma ShippedBreakpointsWellFormed()
    ensures Ascending(Configured.levelBreakpoints) && Ascending([])
    ensures forall i :: 0 <= i < BreakpointCount ==>
              0.0 < EffectiveBreakpoint(Configured.levelBreakpoints, i) < 1.0
  {
  }

  /** Half-way closeness (distance maxDist/2) under the shipped breakpoints is
      level 1: 0.5 is below the second breakpoint 3.4/6. */
  lemma HalfwayIsLevelOne(maxDist: real)
    requires maxDist > 0.0
    ensures LevelFromDistance(maxDist / 2.0, maxDist, Configured.levelBreakpoints) == 1
  {
    assert (maxDist / 2.0) / maxDist == 0.5 by {
      assert maxDist / 2.0 == 0.5 * maxDist;
    }
  }

  /** a <= b * m with m > 0 gives a / m <= b. */
  lemma DivideBelow(a: real, b: real, m: real)
    requires m > 0.0 && a <= b * m
    ensures a / m <= b
  {
    var q := a / m;
    assert q * m == a;
    if q > b {
      assert q * m > b * m;
    }
  }

  /** The reveal test, independent of the six-level scale. */
  predicate IsNear(dist: real, revealRadius: real): (near: bool)
    ensures near <==> dist <= revealRadius
  {
    dist <= revealRadius
  }

  /** When the reveal radius fits inside the last band (radius at most
      (1 - breakpoint 4) * maxDist) and the breakpoints ascend, any pointer
      near enough to reveal the target hears level 5. */
  lemma NearImpliesLoudest(dist: real, maxDist: real, cfg: ClassifierConfig)
    requires dist >= 0.0 && maxDist > 0.0
    requires Ascending(cfg.levelBreakpoints)
    requires EffectiveBreakpoint(cfg.levelBreakpoints, 4) <= 1.0
    requires cfg.revealRadius <= (1.0 - EffectiveBreakpoint(cfg.levelBreakpoints, 4)) * maxDist
    requires IsNear(dist, cfg.revealRadius)
    ensures LevelFromDistance(dist, maxDist, cfg.levelBreakpoints) == 5
  {
    var b4 := EffectiveBreakpoint(cfg.levelBreakpoints, 4);
    var c := Closeness(dist, maxDist);
    DivideBelow(dist, 1.0 - b4, maxDist);
    assert b4 <= c;
    LevelIsBand(c, cfg.levelBreakpoints, 5);
  }

  /** What one classification yields: the level, and whether the pointer is near. */
  datatype Desired = Desired(level: Level, near: bool)

  /** `computeDesiredLevel`: measures from the effective pointer (centre
      fallback for the sentinel) to the target with `hypot`, classifies the
      distance against maxDist = hypot(viewport) * factor, and applies the
      reveal test. `hypot` is the browser's Euclidean norm, passed in. */
  function ComputeDesiredLevel(pointer: Point, target: Point, innerWidth: real, innerHeight: real,
                               cfg: ClassifierConfig, hypot: (real, real) -> real): (d: Desired)
    requires forall a, b :: hypot(a, b) >= 0.0
    ensures var p := EffectivePointer(pointer, innerWidth, innerHeight);
            var dist := hypot(p.x - target.x, p.y - target.y);
            && (d.near <==> dist <= cfg.revealRadius)
            && d.level == LevelFromDistance(dist, MaxLevelDistance(hypot(innerWidth, innerHeight),
                                                                   cfg.maxDistanceFactor),
                                            cfg.levelBreakpoints)
            && ((dist == 0.0 && forall i :: 0 <= i < BreakpointCount ==>
                   EffectiveBreakpoint(cfg.levelBreakpoints, i) <= 1.0) ==> d.level == 5)
  {
    var p := EffectivePointer(pointer, innerWidth, innerHeight);
    var dist := hypot(p.x - target.x, p.y - target.y);
    var maxDist := MaxLevelDistance(hypot(innerWidth, innerHeight), cfg.maxDistanceFactor);
    Desired(LevelFromDistance(dist, maxDist, cfg.levelBreakpoints), IsNear(dist, cfg.revealRadius))
  }
}

=== FILE: realmath.dfy ===
/** Real-number helpers shared by the geometry and the audio engine. */
module RealMath {

  function Max(a: real, b: real): real { if a >= b then a else b }

  function Min(a: real, b: real): real { if a <= b then a else b }

  function Abs(a: real): real { if a < 0.0 then -a else a }
}
